=== FILE: README.md ===
# FoodBridge decision logic in Dafny

FoodBridge is a community food-donation app. Donors list surplus food, other
users browse a map of listings, and a points/badge/leaderboard layer rewards
participation. Almost all of the code is user interface around a hosted
database. This project models the small deterministic decisions inside that
code and proves what they guarantee:

- **The two listing forms** (`donation_form.dfy`, `request_form.dfy`, sharing
  `dietary.dfy` and `donations.dfy`). Ticking a dietary checkbox appends the
  tag and clearing it filters out every copy. Submitting without a captured
  location stops before any sign-in lookup or database write. The form then
  becomes one row for the `donations` table. The donation form sends an
  empty expiry as null. The request form sends no expiry at all and stores
  its urgency in the pickup-window column.
- **The badge board** (`badges.dfy`). It decides whether a badge is earned or
  reachable with the current points, how each tile is drawn (earned,
  unlockable, locked) and what its caption says.
- **Profile completion** (`profile_progress.dfy`). It counts the filled
  profile fields out of four, gives the percentage, and builds the checklist.
- **The leaderboard** (`leaderboard.dfy`). It covers what the top-10 query
  asks of the database, how rows are reshaped for display, and the trophy,
  medal, award or `#n` marker for each place.
- **The `send-notification` edge function** (`send_notification.dfy`). It
  answers preflights, validates fields and returns 400, 200 or 500.
- **The `ai-donation-concierge` edge function** (`concierge.dfy`). It checks
  the API key and the gateway status. It cuts the JSON array out of the
  model's answer with a greedy `[`…`]` match, and falls back to an empty
  list when that fails.

Support modules: `common.dfy` (an optional value), `decimal.dfy` (JavaScript
rendering of integers below 10^21 in magnitude as text, with its inverse), and `js.dfy` (JSON values,
truthiness, object destructuring and HTTP responses).

Effects that cross into the outside world are inputs or outputs of the pure
functions here. These are the sign-in lookup, the database insert and its
error, the gateway's reply, the environment variable, `JSON.parse` and
`crypto.randomUUID`. The submit handlers and the edge functions return the
ordered trace of effects they would perform, so "before any sign-in lookup"
and "before the body is read" are statements about that trace.

## Model

| member | source | states |
|---|---|---|
| Dietary.Without | src/components/DonationForm.tsx:61 | clearing an option leaves it absent and keeps every other option exactly as often as before |
| Dietary.WithoutIsSubsequence | src/components/RequestForm.tsx:60 | the filtered list keeps the surviving options in their original relative order |
| Dietary.WithoutCharacterized | src/components/DonationForm.tsx:58-62 | the filter result is the only order-preserving selection that drops the option and keeps all other options with their counts |
| Dietary.Toggle | src/components/DonationForm.tsx:55-64 | ticking appends at the end: the old list is a prefix, the length grows by one, and the option's count grows by one even if already present; clearing removes it and keeps the order of the rest |
| Dietary.UncheckIdempotent | src/components/DonationForm.tsx:58-62 | clearing an option a second time changes nothing |
| Dietary.CheckThenUncheckRestores | src/components/DonationForm.tsx:55-62 | ticking an absent option and then clearing it restores the original list |
| Dietary.ToggleCheckedState | src/components/DonationForm.tsx:192 | after a change, the changed checkbox shows exactly the reported state and every other option's ticked state is unchanged |
| Dietary.CheckboxStates | src/components/DonationForm.tsx:188-193 | one checkbox per option in display order, ticked iff its option is in the list |
| Dietary.ToggleFlipsOneCheckbox | src/components/RequestForm.tsx:175-180 | changing the k-th rendered checkbox sets only that checkbox and leaves the other five as they were |
| Donations.Submission | src/components/DonationForm.tsx:66-109 | no location gives a single error toast with no sign-in lookup or insert; otherwise loading is switched on first and off last, the sign-in lookup comes second, an insert happens iff a user is signed in, and navigation to /map and the success toast happen iff the insert succeeds; the failure toast appears iff the insert fails (when its text differs from the other error texts) and a signed-out visitor gets the sign-in toast; a trace holds at most one insert |
| Donations.AuthBeforeInsert | src/components/DonationForm.tsx:76-97 | every insert in a trace comes after the sign-in lookup |
| Donations.SubmitEnabled | src/components/DonationForm.tsx:238 | the submit button is enabled iff a location has been captured and no submit is in flight |
| DonationForm.HandleDietaryChange | src/components/DonationForm.tsx:55-64 | only dietaryInfo changes (title, description, foodType, quantity, expiryTime and pickupWindow stay); ticking appends, clearing removes every copy in order |
| DonationForm.ExpiryOf | src/components/DonationForm.tsx:91 | an empty expiry text is sent as null, and any other text is sent unchanged |
| DonationForm.Record | src/components/DonationForm.tsx:85-97 | the row has status "available", the signed-in user's id, the location's latitude and longitude, and an expiry that is null iff the form's expiry is empty |
| DonationForm.RecordKeepsForm | src/components/DonationForm.tsx:85-97 | every form field can be read back from the inserted row unchanged |
| DonationForm.Submit | src/components/DonationForm.tsx:66-109 | no location gives rejection before any sign-in lookup or insert; an insert happens iff location and user are both present, and its row is this form's record; "Donation created successfully!" is shown iff the insert succeeds, "Failed to create donation. Please try again." iff it fails, and the sign-in prompt when no user is signed in; at most one insert per submit |
| RequestForm.HandleDietaryChange | src/components/RequestForm.tsx:54-63 | only dietaryInfo changes (title, description, foodType, quantity and urgency stay); ticking appends, clearing removes every copy in order |
| RequestForm.Record | src/components/RequestForm.tsx:85-96 | the row has status "available", urgency stored as pickup_window, no expiry_time field, and location copied |
| RequestForm.RecordKeepsForm | src/components/RequestForm.tsx:85-96 | every request field can be read back from the inserted row unchanged |
| RequestForm.Submit | src/components/RequestForm.tsx:65-108 | no location gives rejection before any sign-in lookup or insert; an insert happens iff location and user are both present, and its row is this form's record; the request form's success toast is shown iff the insert succeeds, its failure toast iff it fails, and the sign-in prompt when no user is signed in; at most one insert per submit |
| Badges.HasBadge | src/components/BadgesDisplay.tsx:53 | true iff some earned record carries the badge id |
| Badges.Classify | src/components/BadgesDisplay.tsx:70-76 | exactly one tile state: earned takes precedence over unlockable, which takes precedence over locked |
| Badges.Label | src/components/BadgesDisplay.tsx:81-83 | the caption is "Earned!" iff the badge is earned, otherwise it ends in " pts" after a number text with no leading zero |
| Badges.LabelShowsThreshold | src/components/BadgesDisplay.tsx:82 | an unearned tile's caption reads back as exactly the badge's points_required; "Earned!" carries no threshold |
| Badges.TileOf | src/components/BadgesDisplay.tsx:63-84 | a tile is earned iff some earned record has its id, unlockable iff not earned and points ≥ threshold, locked otherwise; the caption is "Earned!" iff the tile is earned, and otherwise reads back as exactly the badge's points_required |
| Badges.Tiles | src/components/BadgesDisplay.tsx:63 | exactly one tile per catalog badge, in catalog order |
| Badges.ReachablePrefix | src/components/BadgesDisplay.tsx:54 | with the catalog in ascending threshold order (the query at line 30), the badges the points reach form a prefix of the catalog |
| Badges.CanEarnMonotone | src/components/BadgesDisplay.tsx:54 | reachable at some points total implies reachable at any larger total |
| Badges.LoadCatalog | src/components/BadgesDisplay.tsx:29-32 | the catalog is replaced only when the query returned data; nothing else changes |
| Badges.LoadUserData | src/components/BadgesDisplay.tsx:34-51 | nothing changes for a signed-out visitor; earned badges and points are each replaced only when their query returned data |
| Badges.Loaded | src/components/BadgesDisplay.tsx:20-22 | points stay at the initial 0 until the stats row arrives |
| Badges.DefaultPointsUnlockOnlyFreeBadges | src/components/BadgesDisplay.tsx:22 | before the stats row arrives, an unearned badge is unlockable iff it needs at most 0 points |
| ProfileProgress.Completed | src/components/ProfileProgress.tsx:39-46 | the count is at most 4, equals 4 iff all four fields are filled, and is 0 iff none are |
| ProfileProgress.Progress | src/components/ProfileProgress.tsx:39-49 | progress is 25 × the count, so one of 0/25/50/75/100; it is 100 iff all fields are filled and 0 iff none are |
| ProfileProgress.Items | src/components/ProfileProgress.tsx:53-58 | four entries, in the order Name, Avatar, Phone, Role, each ticked iff its field is filled |
| ProfileProgress.ItemsAgreeWithScore | src/components/ProfileProgress.tsx:43-58 | the checklist ticks as many entries as the score counts |
| ProfileProgress.FillNeverDecreases | src/components/ProfileProgress.tsx:43-48 | filling a field never lowers progress; filling an empty one raises it by exactly 25 |
| Leaderboard.InnerJoin | src/components/Leaderboard.tsx:35-42 | only stats rows whose user has a profile come back, each with that profile attached; every such row is kept |
| Leaderboard.TopN | src/components/Leaderboard.tsx:43-44 | returns min(n, rows) rows drawn from the input, in non-increasing points order, and no row left out has more points than a returned one |
| Leaderboard.TopNIsSnapshot | src/components/Leaderboard.tsx:43-44 | the descending, limit-10 query contract can always be met |
| Leaderboard.SnapshotHeadIsMax | src/components/Leaderboard.tsx:43-44 | in any answer that meets the query contract, the first entry has the most points of all candidates |
| Leaderboard.Format | src/components/Leaderboard.tsx:46-55 | the mapping keeps length and order, copies user_id, points and donations_count, and lifts full_name and avatar_url out of the nested profile |
| Leaderboard.FormatKeepsSnapshot | src/components/Leaderboard.tsx:46-55 | the query rows can be read back from the displayed entries, so descending order survives formatting |
| Leaderboard.Fetch | src/components/Leaderboard.tsx:34-56 | a query that returns no data leaves the previous list in place; otherwise the displayed list has at most 10 entries (exactly min(10, joined rows)), in non-increasing points order, each one a stats row of a user who has a profile, shown with that profile's name; read back, the list is a valid top-10 snapshot of the joined rows (no row shown more often than it occurs in the join, highest points first, no row left out outranks a shown one) |
| Leaderboard.RankIconOf | src/components/Leaderboard.tsx:58-63 | trophy iff index 0, medal iff 1, award iff 2, and a numbered marker iff index ≥ 3, whose text is '#' followed by digits with no leading zero reading back as index + 1 |
| Leaderboard.RankIconsDistinct | src/components/Leaderboard.tsx:58-63 | distinct places never share a marker |
| Decimal.ParseIntToString | src/components/BadgesDisplay.tsx:82 | the text rendering of an integer reads back as the same integer |
| Decimal.NatToStringInjective | src/components/Leaderboard.tsx:62 | two places have the same number text iff they are the same place |
| Js.Destructure | supabase/functions/send-notification/index.ts:12 | destructuring throws exactly on null or undefined; otherwise each name yields the object's field or undefined |
| SendNotification.ReadRequest | supabase/functions/send-notification/index.ts:12 | reading the request fails exactly when the body is not JSON or is null, and a parse failure keeps the parser's message; a successful read gives the body's to, subject, html and text properties, in that role |
| SendNotification.Handle | supabase/functions/send-notification/index.ts:6-34 | OPTIONS is answered before the body is read; status is 400 "Missing fields" iff to or subject is falsy or both html and text are; 500 with the error message iff the body cannot be read; otherwise 200 with data.id and the notification logged; every response carries the CORS headers |
| SendNotification.OneContentFieldSuffices | supabase/functions/send-notification/index.ts:13 | a request with recipient, subject and only html, or only text, is acknowledged with 200 |
| Concierge.MatchSpan | supabase/functions/ai-donation-concierge/index.ts:67 | the span runs from the first '[' to the last ']' when that ']' comes later; there is no span iff the text has no '[' … ']' pair at all |
| Concierge.ExtractArray | supabase/functions/ai-donation-concierge/index.ts:67 | the extracted text, when present, starts with '[' and ends with ']', and is present iff the text has some match |
| Concierge.ExtractIsLeftmostLongest | supabase/functions/ai-donation-concierge/index.ts:67 | the extraction is exactly the regular expression's leftmost, greedy-longest match |
| Concierge.Matches | supabase/functions/ai-donation-concierge/index.ts:64-72 | the matches are either the parse of a bracketed substring of the answer or the empty list; they are the empty list when there is no match or the content is not a string; when there is a match they are the parse of the leftmost greedy match, or the empty list if that does not parse |
| Concierge.ReportedMessage | supabase/functions/ai-donation-concierge/index.ts:80 | the reported error message is never empty and is the error's own message when that is non-empty |
| Concierge.Handle | supabase/functions/ai-donation-concierge/index.ts:8-85 | OPTIONS is answered with no effects; status is 500 iff the body is unreadable, the key is unset or empty, the gateway call is rejected, reading its reply fails, or its status is outside 200–299; the gateway is called iff body and key are fine; an unparsable body reports the parser's message and a null body the destructuring error's; a rejected call or failed read reports its own error message, a non-OK status reports "AI Gateway error: <status>", a missing key its fixed message; a 200 carries the extracted matches |
| Concierge.ParseFailureIsNotAnError | supabase/functions/ai-donation-concierge/index.ts:64-76 | an answer whose bracketed text does not parse still gets a 200 with an empty list of matches |

## Left out

- Points ledger, badge awarding and change-event fan-out: none of the modelled components or edge functions implements them; they only read points and earned badges.
- DonationForm.Submit, RequestForm.Submit: model `handleSubmit` only, which runs after the browser's `required` check on title, food type and quantity. That check blocks submitting while any of the three is empty; it is not modelled, so the model also accepts forms the browser would stop.
- Realtime subscriptions and refetch on change (src/components/Leaderboard.tsx:22-31, the map components): asynchronous I/O driven by outside events.
- Map rendering (SimpleMap.tsx, InteractiveMap.tsx) and static pages (Documentation.tsx, Index.tsx, Map.tsx): markup and mapping-library calls. Dashboard.tsx is sign-in redirects and a one-line role default; it is not part of this model.
- Geolocation capture, toasts' appearance, navigation, sign-in and the database: each is an input, or an entry in an effect trace.
- The field `onChange` handlers of both forms: each only replaces one text field.
- The prompt text, model name and temperature sent to the gateway, console logging, and the text of a non-OK gateway reply when it is read successfully: they do not affect any response the function returns. A failed read of that text does, and is modelled.
- `JSON.parse` is an arbitrary partial function, and the notification id is an opaque parameter in place of `crypto.randomUUID`.
- Order of the two concurrent loads on the badge board: each load is modelled as its own state update, applied in any order the caller chooses.
- Js.DestructureNullMessage stands in for the runtime's TypeError text when a null body is destructured; the exact wording is the engine's.
- Badges.Label: renders points_required through integer rendering only. A fractional threshold (a JavaScript number such as 2.5) is outside the model because thresholds are integers here. A threshold of 10^21 or more, which JavaScript writes in exponent form ("1e+21 pts"), is rendered in plain digits instead.
- Leaderboard.TopN: ties in points may come back from the database in any order. TopN is one answer the query contract allows, not the database's answer; Leaderboard.IsSnapshot is the contract itself.
- ProfileProgress.Progress: JavaScript computes the percentage in floating point. The model uses reals, which give the same five values because quarters and their products with 100 are exact in binary floating point. `Math.round` on display is therefore the identity and is not modelled.
- Coordinates are reals that are only copied. No floating-point behaviour is modelled.
- ProfileProgress.Completed: full_name and role are strings, as the profile type declares. A null arriving from the database would count as unfilled, exactly like the empty string, so nothing is lost by leaving it out.

=== FILE: badges.dfy ===
/** The badge board: which catalog badges the signed-in user has earned,
    which they could earn with their current points, and how each tile is
    drawn and labelled. The board only reads points and earned badges; it
    never awards anything. */
module Badges {
  import opened Common
  import Decimal

  datatype Badge = Badge(id: string, name: string, description: string, icon: string, pointsRequired: int)

  datatype UserBadge = UserBadge(badgeId: string, earnedAt: string)

  /** The three ways a tile is drawn: highlighted, dashed outline, dimmed. */
  datatype TileState = Earned | Unlockable | Locked

  datatype Tile = Tile(badgeId: string, state: TileState, caption: string)

  /** The board's loaded data. Points stay 0 until the stats row arrives. */
  datatype Board = Board(catalog: seq<Badge>, earned: seq<UserBadge>, points: int)

  const Initial: Board := Board([], [], 0)

  const EarnedLabel: string := "Earned!"

  /** Whether some earned record names `id`. */
  function HasBadge(earned: seq<UserBadge>, id: string): (r: bool)
    ensures r <==> exists i :: 0 <= i < |earned| && earned[i].badgeId == id
  {
    if |earned| == 0 then false
    else if earned[0].badgeId == id then true
    else
      var r := HasBadge(earned[1..], id);
      assert forall i :: 1 <= i < |earned| ==> earned[i] == earned[1..][i - 1];
      r
  }

  predicate CanEarn(points: int, pointsRequired: int) {
    points >= pointsRequired
  }

  /** Earned wins over unlockable, which wins over locked. */
  function Classify(earned: bool, unlockable: bool): (s: TileState)
    ensures s == Earned <==> earned
    ensures s == Unlockable <==> !earned && unlockable
    ensures s == Locked <==> !earned && !unlockable
  {
    if earned then Earned else if unlockable then Unlockable else Locked
  }

  /** "Earned!" on an earned tile, otherwise the threshold as "<n> pts". */
  function Label(b: Badge, earned: bool): (s: string)
    ensures s == EarnedLabel <==> earned
    ensures !earned ==> |s| > 4 && s[|s| - 4..] == " pts"
    ensures !earned ==> Decimal.NoLeadingZero(s[..|s| - 4])
  {
    if earned then EarnedLabel
    else
      var s := Decimal.IntToString(b.pointsRequired) + " pts";
      assert s[|s| - 1] == 's' != EarnedLabel[|EarnedLabel| - 1];
      assert s[..|s| - 4] == Decimal.IntToString(b.pointsRequired);
      s
  }

  function TileOf(board: Board, b: Badge): (t: Tile)
    ensures t.badgeId == b.id
    ensures t.state == Earned <==> HasBadge(board.earned, b.id)
    ensures t.state == Unlockable <==> !HasBadge(board.earned, b.id) && CanEarn(board.points, b.pointsRequired)
    ensures t.state == Locked <==> !HasBadge(board.earned, b.id) && !CanEarn(board.points, b.pointsRequired)
    ensures t.caption == EarnedLabel <==> t.state == Earned
    ensures t.state != Earned ==> ThresholdOf(t.caption) == Some(b.pointsRequired)
  {
    LabelShowsThreshold(b);
    var earned := HasBadge(board.earned, b.id);
    Tile(b.id, Classify(earned, CanEarn(board.points, b.pointsRequired)), Label(b, earned))
  }

  /** One tile per catalog badge, in catalog order. */
  function Tiles(board: Board): (ts: seq<Tile>)
    ensures |ts| == |board.catalog|
    ensures forall i :: 0 <= i < |ts| ==> ts[i].badgeId == board.catalog[i].id
    ensures forall i :: 0 <= i < |ts| ==> ts[i] == TileOf(board, board.catalog[i])
  {
    seq(|board.catalog|, i requires 0 <= i < |board.catalog| => TileOf(board, board.catalog[i]))
  }

  /** The catalog query orders by threshold, ascending. */
  predicate SortedByThreshold(catalog: seq<Badge>) {
    forall i, j :: 0 <= i < j < |catalog| ==> catalog[i].pointsRequired <= catalog[j].pointsRequired
  }

  /** How many catalog badges the given points reach. */
  function CountReachable(catalog: seq<Badge>, points: int): (n: nat)
    ensures n <= |catalog|
  {
    if |catalog| == 0 then 0
    else (if CanEarn(points, catalog[0].pointsRequired) then 1 else 0) + CountReachable(catalog[1..], points)
  }

  /** With the catalog in ascending threshold order, the badges the user's
      points reach are exactly the first `CountReachable` ones. */
  lemma {:induction false} ReachablePrefix(catalog: seq<Badge>, points: int)
    requires SortedByThreshold(catalog)
    ensures forall i :: 0 <= i < |catalog| ==>
              (CanEarn(points, catalog[i].pointsRequired) <==> i < CountReachable(catalog, points))
  {
    if |catalog| > 0 {
      var tail := catalog[1..];
      assert SortedByThreshold(tail);
      ReachablePrefix(tail, points);
      forall i | 0 <= i < |catalog|
        ensures CanEarn(points, catalog[i].pointsRequired) <==> i < CountReachable(catalog, points)
      {
        if i > 0 {
          assert catalog[i] == tail[i - 1];
        }
      }
    }
  }

  /** Tiles can only climb as the points total grows: a badge reachable at
      some total is reachable at every larger one. */
  lemma CanEarnMonotone(p: int, q: int, pointsRequired: int)
    requires p <= q
    ensures CanEarn(p, pointsRequired) ==> CanEarn(q, pointsRequired)
  {
  }

  /** Results of the three loads; `None` is a query that returned no data
      (for the stats row, also the case of no row at all). */
  function LoadCatalog(board: Board, data: Option<seq<Badge>>): (r: Board)
    ensures r.earned == board.earned && r.points == board.points
    ensures data.Some? ==> r.catalog == data.value
    ensures data.None? ==> r == board
  {
    if data.Some? then board.(catalog := data.value) else board
  }

  /** The user's badges and points, fetched only for a signed-in user; each
      part is applied only when its query returned data. */
  function LoadUserData(board: Board, signedIn: bool, earned: Option<seq<UserBadge>>, points: Option<int>): (r: Board)
    ensures r.catalog == board.catalog
    ensures !signedIn ==> r == board
    ensures r.points == (if signedIn && points.Some? then points.value else board.points)
    ensures r.earned == (if signedIn && earned.Some? then earned.value else board.earned)
  {
    if !signedIn then board
    else
      var b := if earned.Some? then board.(earned := earned.value) else board;
      if points.Some? then b.(points := points.value) else b
  }

  /** The board once the catalog and the earned badges have arrived, with
      the stats row arrived (`Some`) or not (`None`). */
  function Loaded(catalog: seq<Badge>, earned: seq<UserBadge>, points: Option<int>): (board: Board)
    ensures board.catalog == catalog && board.earned == earned
    ensures board.points == (if points.Some? then points.value else 0)
  {
    LoadUserData(LoadCatalog(Initial, Some(catalog)), true, Some(earned), points)
  }

  /** Before the stats row arrives, a not-yet-earned badge is drawn as
      unlockable exactly when it needs no points. */
  lemma DefaultPointsUnlockOnlyFreeBadges(catalog: seq<Badge>, earned: seq<UserBadge>, i: nat)
    requires i < |catalog|
    requires !HasBadge(earned, catalog[i].id)
    ensures Tiles(Loaded(catalog, earned, None))[i].state == Unlockable <==> catalog[i].pointsRequired <= 0
  {
  }

  /** Reads the threshold back out of a tile caption; "Earned!" carries
      none. */
  function ThresholdOf(caption: string): Option<int> {
    if |caption| > 4 && caption[|caption| - 4..] == " pts" && Decimal.IsIntText(caption[..|caption| - 4])
    then Some(Decimal.ParseInt(caption[..|caption| - 4]))
    else None
  }

  /** The caption of a tile not yet earned gives back exactly its threshold,
      and the caption of an earned tile shows none. */
  lemma LabelShowsThreshold(b: Badge)
    ensures ThresholdOf(Label(b, false)) == Some(b.pointsRequired)
    ensures ThresholdOf(Label(b, true)) == None
  {
    var n := Decimal.IntToString(b.pointsRequired);
    var s := Label(b, false);
    assert s[..|s| - 4] == n;
    Decimal.ParseIntToString(b.pointsRequired);
  }
}

=== FILE: common.dfy ===
/** Small shared vocabulary: an optional value, for the source's `null`able
    fields and lookups that may find nothing. */
module Common {

  datatype Option<+T> = None | Some(value: T)

  function Min(a: int, b: int): (m: int)
    ensures m <= a && m <= b
    ensures m == a || m == b
  {
    if a <= b then a else b
  }
}

=== FILE: concierge.dfy ===
/** The `ai-donation-concierge` edge function: it forwards a food request
    and the open donations to a language-model gateway, then cuts the JSON
    array out of the model's free-text answer. The prompts and the model
    call are outside the model; the gateway's answer arrives as a
    parameter, and `JSON.parse` is an arbitrary partial function. */
module Concierge {
  import opened Common
  import opened Js
  import Decimal

  /** `s[i..j]` is a match of `/\[[\s\S]*\]/`: it opens with '[' and
      closes with ']', anything in between. */
  predicate IsMatch(s: string, i: int, j: int) {
    0 <= i && i + 2 <= j <= |s| && s[i] == '[' && s[j - 1] == ']'
  }

  function FirstIndex(s: string, c: char): (r: Option<nat>)
    ensures r.None? <==> c !in s
    ensures r.Some? ==> r.value < |s| && s[r.value] == c
    ensures r.Some? ==> forall k :: 0 <= k < r.value ==> s[k] != c
  {
    if |s| == 0 then None
    else if s[0] == c then Some(0)
    else
      match FirstIndex(s[1..], c)
      case None => None
      case Some(k) => Some(k + 1)
  }

  function LastIndex(s: string, c: char): (r: Option<nat>)
    ensures r.None? <==> c !in s
    ensures r.Some? ==> r.value < |s| && s[r.value] == c
    ensures r.Some? ==> forall k :: r.value < k < |s| ==> s[k] != c
  {
    if |s| == 0 then None
    else if s[|s| - 1] == c then Some(|s| - 1)
    else
      var r := LastIndex(s[..|s| - 1], c);
      assert forall k :: 0 <= k < |s| - 1 ==> s[k] == s[..|s| - 1][k];
      r
  }

  /** Where the regular expression matches: from the first '[' to the last
      ']', provided that ']' comes after it. */
  function MatchSpan(s: string): (span: Option<(nat, nat)>)
    ensures span.Some? ==> IsMatch(s, span.value.0, span.value.1)
    ensures span.None? <==> forall i, j :: !IsMatch(s, i, j)
    ensures span.Some? ==> forall i, j :: IsMatch(s, i, j) ==>
              span.value.0 < i || (span.value.0 == i && j <= span.value.1)
  {
    match FirstIndex(s, '[')
    case None => None
    case Some(i) =>
      match LastIndex(s, ']')
      case None => None
      case Some(j) =>
        if i < j then
          assert IsMatch(s, i, j + 1);
          Some((i, j + 1))
        else
          assert forall a, b :: IsMatch(s, a, b) ==> i <= a && b - 1 <= j;
          None
  }

  /** The text the regular expression matches in the model's answer, if any. */
  function ExtractArray(s: string): (r: Option<string>)
    ensures r.Some? ==> |r.value| >= 2 && r.value[0] == '[' && r.value[|r.value| - 1] == ']'
    ensures r.Some? <==> exists i, j :: IsMatch(s, i, j)
  {
    match MatchSpan(s)
    case None => None
    case Some((i, j)) => Some(s[i..j])
  }

  /** The regular expression's own semantics: the leftmost match, and among
      the matches that start there the longest (greedy `*`). The extraction
      above returns exactly that text. */
  lemma ExtractIsLeftmostLongest(s: string, i: int, j: int)
    requires IsMatch(s, i, j)
    requires forall a, b :: IsMatch(s, a, b) ==> i < a || (i == a && b <= j)
    ensures ExtractArray(s) == Some(s[i..j])
  {
    var span := MatchSpan(s);
    assert span.Some?;
    assert span.value == (i, j);
  }

  /** The `matches` value sent back. Content that is not a string makes
      `.match` throw, which the inner `catch` turns into `[]`, as it does
      for a parse failure; no match also gives `[]`. */
  function Matches(content: Value, parse: string -> Option<Value>): (m: Value)
    ensures m == Arr([]) || (content.Str? && exists i, j :: IsMatch(content.s, i, j) && parse(content.s[i..j]) == Some(m))
    ensures !content.Str? ==> m == Arr([])
    ensures content.Str? && ExtractArray(content.s).None? ==> m == Arr([])
    ensures content.Str? && ExtractArray(content.s).Some? ==>
              m == (match parse(ExtractArray(content.s).value) case Some(v) => v case None => Arr([]))
  {
    match content
    case Str(s) =>
      (match MatchSpan(s)
       case None => Arr([])
       case Some((i, j)) =>
         match parse(s[i..j])
         case None => Arr([])
         case Some(v) => v)
    case _ => Arr([])
  }

  /** What reading the gateway's reply body gives: the content read, or the
      message of the error raised while reading it. With a status in the OK
      range the read is `response.json()` and the content is the first
      choice's message content (a missing choice raises, so it is Unreadable).
      With any other status the read is `response.text()`, whose text is only
      logged: Content then carries nothing the handler uses. */
  datatype Payload = Content(content: Value) | Unreadable(message: string)

  /** How the gateway call ends: the `fetch` promise is rejected (a network
      failure) with an error message, or the gateway answers with an HTTP
      status and a body. */
  datatype GatewayReply = Rejected(message: string) | Answered(status: int, payload: Payload)

  datatype Effect = ReadBody | ReadApiKey | CallGateway(apiKey: string) | LogError(message: string)

  datatype Outcome = Outcome(response: Response, effects: seq<Effect>)

  const KeyMissingMessage: string := "LOVABLE_API_KEY not configured"

  /** The gateway answered with a status in the OK range 200..299. */
  predicate Ok(status: int) {
    200 <= status <= 299
  }

  /** The key check rejects an unset and an empty variable alike. */
  predicate KeyConfigured(apiKey: Option<string>) {
    apiKey.Some? && apiKey.value != ""
  }

  function GatewayErrorMessage(status: int): string {
    "AI Gateway error: " + Decimal.IntToString(status)
  }

  /** The message a 500 reports: the error's own, or "Unknown error" when
      that is empty (the fallback is taken for any falsy message). */
  function ReportedMessage(message: string): (m: string)
    ensures m != ""
    ensures message != "" ==> m == message
  {
    if message == "" then UnknownError else message
  }

  /** The JSON body can be destructured into the request and the list of
      donations. */
  predicate BodyAccepted(body: Body) {
    body.Parsed? && body.value != Null && body.value != Undefined
  }

  predicate CallsGateway(effects: seq<Effect>) {
    exists i :: 0 <= i < |effects| && effects[i].CallGateway?
  }

  function Fail(message: string, effects: seq<Effect>): Outcome {
    Outcome(JsonResponse(500, ErrorBody(ReportedMessage(message))), effects + [LogError(message)])
  }

  /** The handler. Every failure on the way, from the body to the gateway's
      answer, lands in the outer `catch` and becomes a 500 with the error's
      message; a reply that cannot be parsed into matches does not. */
  function Handle(verb: string, body: Body, apiKey: Option<string>, reply: GatewayReply,
                  parse: string -> Option<Value>): (o: Outcome)
    ensures verb == "OPTIONS" ==> o.effects == [] && o.response == Preflight
    ensures o.response.status in {200, 500}
    ensures o.response.status == 500 <==>
              verb != "OPTIONS"
              && (!BodyAccepted(body) || !KeyConfigured(apiKey) || reply.Rejected? || reply.payload.Unreadable?
                  || !Ok(reply.status))
    ensures CallsGateway(o.effects) <==> verb != "OPTIONS" && BodyAccepted(body) && KeyConfigured(apiKey)
    ensures verb != "OPTIONS" && body.Unparsable? ==>
              o.response.body == Some(ErrorBody(ReportedMessage(body.message)))
    ensures verb != "OPTIONS" && body.Parsed? && !BodyAccepted(body) ==>
              o.response.body == Some(ErrorBody(ReportedMessage(DestructureNullMessage)))
    ensures verb != "OPTIONS" && BodyAccepted(body) && !KeyConfigured(apiKey) ==>
              o.response.body == Some(ErrorBody(KeyMissingMessage))
    ensures verb != "OPTIONS" && BodyAccepted(body) && KeyConfigured(apiKey) && reply.Rejected? ==>
              o.response.body == Some(ErrorBody(ReportedMessage(reply.message)))
    ensures verb != "OPTIONS" && BodyAccepted(body) && KeyConfigured(apiKey) && reply.Answered? ==>
              (if reply.payload.Unreadable? then o.response.body == Some(ErrorBody(ReportedMessage(reply.payload.message)))
               else if !Ok(reply.status) then o.response.body == Some(ErrorBody(GatewayErrorMessage(reply.status)))
               else o.response == JsonResponse(200, Obj(map["matches" := Matches(reply.payload.content, parse)])))
    ensures o.response.status == 200 && verb != "OPTIONS" ==>
              reply.Answered? && Ok(reply.status) && reply.payload.Content?
              && o.response.body == Some(Obj(map["matches" := Matches(reply.payload.content, parse)]))
    ensures forall k :: k in CorsHeaders ==> k in o.response.headers && o.response.headers[k] == CorsHeaders[k]
  {
    if verb == "OPTIONS" then Outcome(Preflight, [])
    else
      match body
      case Unparsable(m) => Fail(m, [ReadBody])
      case Parsed(v) =>
        if v == Null || v == Undefined then Fail(DestructureNullMessage, [ReadBody])
        else if !KeyConfigured(apiKey) then Fail(KeyMissingMessage, [ReadBody, ReadApiKey])
        else
          var called := [ReadBody, ReadApiKey, CallGateway(apiKey.value)];
          assert called[2].CallGateway?;
          match reply
          case Rejected(m) =>
            var failed := Fail(m, called);
            assert failed.effects[2].CallGateway?;
            failed
          case Answered(status, Unreadable(m)) =>
            var failed := Fail(m, called);
            assert failed.effects[2].CallGateway?;
            failed
          case Answered(status, Content(c)) =>
            if !Ok(status) then
              var failed := Fail(GatewayErrorMessage(status), called);
              assert failed.effects[2].CallGateway?;
              failed
            else Outcome(JsonResponse(200, Obj(map["matches" := Matches(c, parse)])), called)
  }

  /** A model answer that cannot be parsed still gets a successful reply,
      with an empty list of matches. */
  lemma ParseFailureIsNotAnError(verb: string, body: Body, apiKey: Option<string>, status: int,
                                 answer: string, parse: string -> Option<Value>)
    requires verb != "OPTIONS" && BodyAccepted(body) && KeyConfigured(apiKey) && Ok(status)
    requires ExtractArray(answer).Some? && parse(ExtractArray(answer).value).None?
    ensures Handle(verb, body, apiKey, Answered(status, Content(Str(answer))), parse).response
            == JsonResponse(200, Obj(map["matches" := Arr([])]))
  {
  }
}

=== FILE: decimal.dfy ===
/** Decimal rendering of integers, as JavaScript template literals do for
    integral Numbers below 10^21 in magnitude (larger ones are written in
    exponent form, such as "1e+21"), together with the parser that inverts it.
    The labels "<n> pts" and "#<n>" and the gateway error text are built
    from it. */
module Decimal {

  predicate IsDigit(c: char) {
    '0' <= c <= '9'
  }

  predicate AllDigits(s: string) {
    forall i :: 0 <= i < |s| ==> IsDigit(s[i])
  }

  function DigitChar(d: nat): (c: char)
    requires d < 10
    ensures IsDigit(c)
    ensures c as int - '0' as int == d
  {
    ('0' as int + d) as char
  }

  function DigitValue(c: char): (d: nat)
    requires IsDigit(c)
    ensures d < 10
    ensures DigitChar(d) == c
  {
    c as int - '0' as int
  }

  /** Canonical decimal text of a natural number: only digits, never empty,
      and no leading zero except for "0" itself. */
  function NatToString(n: nat): (s: string)
    ensures |s| >= 1
    ensures AllDigits(s)
    ensures s[0] == '0' <==> n == 0
    ensures n < 10 <==> |s| == 1
    decreases n
  {
    if n < 10 then [DigitChar(n)] else NatToString(n / 10) + [DigitChar(n % 10)]
  }

  /** Value of a string of decimal digits (the empty string reads as 0). */
  function ParseDigits(s: string): nat
    requires AllDigits(s)
  {
    if |s| == 0 then 0 else ParseDigits(s[..|s| - 1]) * 10 + DigitValue(s[|s| - 1])
  }

  /** Text `ParseInt` accepts: digits, optionally after one leading '-'. */
  predicate IsIntText(s: string) {
    && |s| >= 1
    && (s[0] == '-' ==> AllDigits(s[1..]))
    && (s[0] != '-' ==> AllDigits(s))
  }

  /** Canonical integer text: no leading zero, except "0" itself, and no
      "-0". */
  predicate NoLeadingZero(t: string) {
    && |t| >= 1
    && (t[0] == '-' ==> |t| >= 2 && t[1] != '0')
    && (t[0] == '0' ==> t == "0")
  }

  /** Rendering as JavaScript does for an integral Number: a leading '-' for
      negatives, then the magnitude. */
  function IntToString(i: int): (s: string)
    ensures |s| >= 1
    ensures s[0] == '-' <==> i < 0
    ensures IsIntText(s)
    ensures NoLeadingZero(s)
  {
    if i < 0 then "-" + NatToString(-i) else NatToString(i)
  }

  function ParseInt(s: string): int
    requires IsIntText(s)
  {
    if s[0] == '-' then 0 - ParseDigits(s[1..]) as int else ParseDigits(s)
  }

  lemma {:induction false} ParseNatToString(n: nat)
    ensures ParseDigits(NatToString(n)) == n
    decreases n
  {
    if n >= 10 {
      var p := NatToString(n / 10);
      var s := NatToString(n);
      assert s == p + [DigitChar(n % 10)];
      assert s[..|s| - 1] == p;
      ParseNatToString(n / 10);
    }
  }

  lemma NatToStringInjective(a: nat, b: nat)
    ensures NatToString(a) == NatToString(b) <==> a == b
  {
    if NatToString(a) == NatToString(b) {
      ParseNatToString(a);
      ParseNatToString(b);
    }
  }

  lemma ParseIntToString(i: int)
    ensures ParseInt(IntToString(i)) == i
  {
    var s := IntToString(i);
    if i < 0 {
      assert s[1..] == NatToString(-i);
      ParseNatToString(-i);
    } else {
      ParseNatToString(i);
    }
  }

  lemma IntToStringInjective(a: int, b: int)
    ensures IntToString(a) == IntToString(b) <==> a == b
  {
    if IntToString(a) == IntToString(b) {
      ParseIntToString(a);
      ParseIntToString(b);
    }
  }
}

=== FILE: dietary.dfy ===
/** The dietary-tag list kept by both the donation form and the request form,
    and the one state transition both forms apply to it when a checkbox is
    ticked or cleared. */
module Dietary {

  /** The checkbox options both forms render, in display order. */
  const Options: seq<string> := ["Vegetarian", "Vegan", "Gluten-Free", "Dairy-Free", "Halal", "Kosher"]

  /** `a` is `b` with some elements deleted, the survivors in their order. */
  predicate IsSubsequence<T(==)>(a: seq<T>, b: seq<T>)
    decreases |b|
  {
    if |a| == 0 then true
    else if |b| == 0 then false
    else if a[0] == b[0] then IsSubsequence(a[1..], b[1..])
    else IsSubsequence(a, b[1..])
  }

  /** Every occurrence of `option` dropped from `list`, the rest kept in order
      (the array `filter` that clearing a checkbox performs). */
  function Without(list: seq<string>, option: string): (r: seq<string>)
    ensures option !in r
    ensures forall x :: x != option ==> multiset(r)[x] == multiset(list)[x]
    ensures |r| == |list| - multiset(list)[option]
  {
    if |list| == 0 then []
    else
      assert list == [list[0]] + list[1..];
      (if list[0] == option then [] else [list[0]]) + Without(list[1..], option)
  }

  /** The new list after the checkbox for `option` reports `checked`:
      ticking appends at the end without looking for an existing copy,
      clearing removes every copy. */
  function Toggle(list: seq<string>, option: string, checked: bool): (r: seq<string>)
    ensures checked ==> |r| == |list| + 1 && r[..|list|] == list && r[|list|] == option
    ensures checked ==> multiset(r)[option] == multiset(list)[option] + 1
    ensures !checked ==> option !in r && IsSubsequence(r, list)
    ensures !checked ==> forall x :: x != option ==> multiset(r)[x] == multiset(list)[x]
  {
    if checked then list + [option]
    else
      WithoutIsSubsequence(list, option);
      Without(list, option)
  }

  /** A checkbox is drawn ticked exactly when its option is in the list. */
  predicate IsChecked(list: seq<string>, option: string) {
    option in list
  }

  /** The ticked state of every rendered checkbox, in display order. */
  function CheckboxStates(list: seq<string>): (r: seq<bool>)
    ensures |r| == |Options|
    ensures forall i :: 0 <= i < |Options| ==> (r[i] <==> Options[i] in list)
  {
    seq(|Options|, i requires 0 <= i < |Options| => IsChecked(list, Options[i]))
  }

  /** Changing the checkbox at position `k` sets that checkbox to the reported
      state and leaves every other rendered checkbox as it was. */
  lemma ToggleFlipsOneCheckbox(list: seq<string>, k: nat, checked: bool)
    requires k < |Options|
    ensures CheckboxStates(Toggle(list, Options[k], checked))[k] == checked
    ensures forall j :: 0 <= j < |Options| && j != k ==>
              CheckboxStates(Toggle(list, Options[k], checked))[j] == CheckboxStates(list)[j]
  {
    ToggleCheckedState(list, Options[k], checked, "");
    forall j | 0 <= j < |Options| && j != k
      ensures CheckboxStates(Toggle(list, Options[k], checked))[j] == CheckboxStates(list)[j]
    {
      assert Options[j] != Options[k] by {
        assert Options[j][..2] != Options[k][..2] || |Options[j]| != |Options[k]| || Options[j][2] != Options[k][2];
      }
      ToggleCheckedState(list, Options[k], checked, Options[j]);
    }
  }

  lemma {:induction false} WithoutIsSubsequence(list: seq<string>, option: string)
    ensures IsSubsequence(Without(list, option), list)
  {
    if |list| > 0 {
      WithoutIsSubsequence(list[1..], option);
      if list[0] != option {
        var r := Without(list, option);
        assert r[0] == list[0] && r[1..] == Without(list[1..], option);
      } else {
        var r := Without(list, option);
        assert r == Without(list[1..], option);
        SubsequenceDropHead(r, list);
      }
    }
  }

  /** If `a` embeds in the tail of `b`, it embeds in `b`. */
  lemma {:induction false} SubsequenceDropHead<T>(a: seq<T>, b: seq<T>)
    requires |b| > 0
    requires IsSubsequence(a, b[1..])
    ensures IsSubsequence(a, b)
    decreases |b|, 0
  {
    if |a| > 0 && a[0] == b[0] {
      SubsequenceTail(a, b[1..]);
    }
  }

  /** Dropping the head of a non-empty subsequence keeps it a subsequence. */
  lemma {:induction false} SubsequenceTail<T>(a: seq<T>, b: seq<T>)
    requires |a| > 0
    requires IsSubsequence(a, b)
    ensures IsSubsequence(a[1..], b)
    decreases |b|, 1
  {
    assert |b| > 0;
    if a[0] == b[0] {
      if |a| > 1 {
        SubsequenceDropHead(a[1..], b);
      }
    } else {
      SubsequenceTail(a, b[1..]);
      SubsequenceDropHead(a[1..], b);
    }
  }

  lemma {:induction false} SubsequenceMultiset<T>(a: seq<T>, b: seq<T>)
    requires IsSubsequence(a, b)
    ensures multiset(a) <= multiset(b)
    decreases |b|
  {
    if |a| > 0 {
      assert b == [b[0]] + b[1..];
      if a[0] == b[0] {
        assert a == [a[0]] + a[1..];
        SubsequenceMultiset(a[1..], b[1..]);
      } else {
        SubsequenceMultiset(a, b[1..]);
      }
    }
  }

  /** The filter is the ONLY list that is an order-preserving selection from
      `list`, omits `option`, and keeps every other option as often as `list`
      has it: so `Without` is exactly "remove all copies, keep the order". */
  lemma {:induction false} WithoutCharacterized(list: seq<string>, option: string, r: seq<string>)
    requires IsSubsequence(r, list)
    requires option !in r
    requires forall x :: x != option ==> multiset(r)[x] == multiset(list)[x]
    ensures r == Without(list, option)
    decreases |list|
  {
    if |list| == 0 {
      assert |r| == 0;
    } else {
      var h := list[0];
      assert list == [h] + list[1..];
      if h == option {
        assert |r| == 0 || r[0] != h;
        assert IsSubsequence(r, list[1..]);
        WithoutCharacterized(list[1..], option, r);
      } else {
        assert multiset(r)[h] == multiset(list)[h] > 0;
        assert h in r;
        if r[0] == h {
          assert r == [h] + r[1..];
          assert IsSubsequence(r[1..], list[1..]);
          forall x | x != option
            ensures multiset(r[1..])[x] == multiset(list[1..])[x]
          {
            assert multiset(r)[x] == multiset([h])[x] + multiset(r[1..])[x];
          }
          WithoutCharacterized(list[1..], option, r[1..]);
        } else {
          assert IsSubsequence(r, list[1..]);
          SubsequenceMultiset(r, list[1..]);
          assert false;
        }
      }
    }
  }

  lemma {:induction false} WithoutAbsent(list: seq<string>, option: string)
    requires option !in list
    ensures Without(list, option) == list
  {
    if |list| > 0 {
      WithoutAbsent(list[1..], option);
      assert list == [list[0]] + list[1..];
    }
  }

  lemma {:induction false} WithoutConcat(a: seq<string>, b: seq<string>, option: string)
    ensures Without(a + b, option) == Without(a, option) + Without(b, option)
  {
    if |a| > 0 {
      var ab := a + b;
      assert ab[0] == a[0];
      assert ab[1..] == a[1..] + b;
      var head := if a[0] == option then [] else [a[0]];
      assert Without(ab, option) == head + Without(a[1..] + b, option);
      WithoutConcat(a[1..], b, option);
      assert Without(a, option) == head + Without(a[1..], option);
    } else {
      assert a + b == b;
    }
  }

  /** Clearing a checkbox twice is the same as clearing it once. */
  lemma UncheckIdempotent(list: seq<string>, option: string)
    ensures Toggle(Toggle(list, option, false), option, false) == Toggle(list, option, false)
  {
    WithoutAbsent(Without(list, option), option);
  }

  /** Ticking an option that was not in the list and then clearing it gives
      back the original list. */
  lemma CheckThenUncheckRestores(list: seq<string>, option: string)
    requires option !in list
    ensures Toggle(Toggle(list, option, true), option, false) == list
  {
    WithoutConcat(list, [option], option);
    WithoutAbsent(list, option);
    assert Without([option], option) == [];
  }

  /** After a change the ticked state of `option` is what was reported, and
      every other checkbox keeps its state. */
  lemma ToggleCheckedState(list: seq<string>, option: string, checked: bool, other: string)
    requires other != option
    ensures IsChecked(Toggle(list, option, checked), option) == checked
    ensures IsChecked(Toggle(list, option, checked), other) == IsChecked(list, other)
  {
    var r := Toggle(list, option, checked);
    if checked {
      assert r[|list|] == option;
      assert other in r <==> other in list by {
        assert r == list + [option];
      }
    } else {
      assert multiset(r)[other] == multiset(list)[other];
    }
  }
}

=== FILE: donation_form.dfy ===
/** The "Create Food Donation" form: its field state, the dietary checkbox
    handler, the row it inserts and its submit handler. */
module DonationForm {
  import opened Common
  import Dietary
  import opened Donations

  datatype Form = Form(
    title: string,
    description: string,
    foodType: string,
    quantity: string,
    expiryTime: string,
    pickupWindow: string,
    dietaryInfo: seq<string>)

  /** The state the form opens with. */
  const Blank: Form := Form("", "", "", "", "", "", [])

  const DonationCopy: Copy := Copy(
    "You must be logged in to create a donation",
    "Failed to create donation. Please try again.",
    "Donation created successfully! \U{1F389}")

  /** The dietary checkbox handler: only the tag list changes. */
  function HandleDietaryChange(f: Form, option: string, checked: bool): (r: Form)
    ensures r.title == f.title && r.description == f.description
    ensures r.foodType == f.foodType && r.quantity == f.quantity
    ensures r.expiryTime == f.expiryTime && r.pickupWindow == f.pickupWindow
    ensures checked ==> |r.dietaryInfo| == |f.dietaryInfo| + 1
    ensures checked ==> r.dietaryInfo[..|f.dietaryInfo|] == f.dietaryInfo
    ensures checked ==> r.dietaryInfo[|f.dietaryInfo|] == option
    ensures !checked ==> option !in r.dietaryInfo
    ensures !checked ==> Dietary.IsSubsequence(r.dietaryInfo, f.dietaryInfo)
    ensures !checked ==> forall x :: x != option ==> multiset(r.dietaryInfo)[x] == multiset(f.dietaryInfo)[x]
  {
    f.(dietaryInfo := Dietary.Toggle(f.dietaryInfo, option, checked))
  }

  /** The expiry column: an empty entry is sent as null. */
  function ExpiryOf(text: string): (e: Expiry)
    ensures e.Null? <==> text == ""
    ensures e.At? <==> text != ""
    ensures e.At? ==> e.time == text
  {
    if text == "" then Null else At(text)
  }

  /** The row inserted for a signed-in user at a captured location. */
  function Record(f: Form, userId: string, loc: Location): (row: DonationRow)
    ensures row.status == Available
    ensures row.userId == userId
    ensures row.latitude == loc.lat && row.longitude == loc.lng
    ensures !row.expiry.Omitted?
    ensures row.expiry.Null? <==> f.expiryTime == ""
  {
    DonationRow(
      userId, f.title, f.description, f.foodType, f.quantity,
      ExpiryOf(f.expiryTime), f.pickupWindow, f.dietaryInfo,
      loc.lat, loc.lng, Available)
  }

  /** Reads the form fields back out of an inserted row. */
  function FormOf(row: DonationRow): Form {
    Form(
      row.title, row.description, row.foodType, row.quantity,
      match row.expiry
      case At(t) => t
      case _ => "",
      row.pickupWindow, row.dietaryInfo)
  }

  /** The inserted row carries every field of the form: nothing entered is
      lost or altered on the way to the database. */
  lemma RecordKeepsForm(f: Form, userId: string, loc: Location)
    ensures FormOf(Record(f, userId, loc)) == f
  {
  }

  /** The submit handler. */
  function Submit(f: Form, location: Option<Location>, user: Option<string>, insertFails: bool): (trace: seq<Effect>)
    ensures location.None? ==> trace == [Toast(Error, NoLocationMessage)]
    ensures location.None? ==> GetUser !in trace && !Inserts(trace)
    ensures Inserts(trace) <==> location.Some? && user.Some?
    ensures forall i :: 0 <= i < |trace| && trace[i].InsertRow? ==>
              location.Some? && user.Some? && trace[i].row == Record(f, user.value, location.value)
    ensures Navigate("/map") in trace <==> location.Some? && user.Some? && !insertFails
    ensures Toast(Success, DonationCopy.created) in trace <==> location.Some? && user.Some? && !insertFails
    ensures Toast(Error, DonationCopy.failed) in trace <==> location.Some? && user.Some? && insertFails
    ensures forall i, j :: 0 <= i < |trace| && 0 <= j < |trace| && trace[i].InsertRow? && trace[j].InsertRow? ==> i == j
    ensures location.Some? && user.None? ==> Toast(Error, DonationCopy.notLoggedIn) in trace
  {
    Submission(location, user, insertFails, DonationCopy, (uid, loc) => Record(f, uid, loc))
  }
}

=== FILE: donations.dfy ===
/** What the two listing forms have in common: the row they insert into the
    `donations` table, and the order of effects their submit handlers
    produce. Authentication, the database, toasts and navigation are
    outside the model; their answers arrive as parameters and their
    invocations appear as entries of an effect trace. */
module Donations {
  import opened Common

  /** A captured geolocation; the coordinates are only copied, never
      computed with. */
  datatype Location = Location(lat: real, lng: real)

  /** The `expiry_time` column of an insert: left out of the row, sent as
      `null`, or sent as the entered date-time text. */
  datatype Expiry = Omitted | Null | At(time: string)

  /** One row handed to `insert` on the `donations` table. */
  datatype DonationRow = DonationRow(
    userId: string,
    title: string,
    description: string,
    foodType: string,
    quantity: string,
    expiry: Expiry,
    pickupWindow: string,
    dietaryInfo: seq<string>,
    latitude: real,
    longitude: real,
    status: string)

  /** Every listing either form creates starts out available. */
  const Available: string := "available"

  datatype Tone = Success | Error

  /** One observable step of a submit handler. `GetUser` is the auth lookup;
      `InsertRow` is the database write. */
  datatype Effect =
    | Toast(tone: Tone, message: string)
    | SetLoading(on: bool)
    | GetUser
    | InsertRow(row: DonationRow)
    | Navigate(path: string)

  /** The texts a form shows on each path of its submit handler. */
  datatype Copy = Copy(notLoggedIn: string, failed: string, created: string)

  const NoLocationMessage: string := "Please capture your location first!"

  predicate Inserts(trace: seq<Effect>) {
    exists i :: 0 <= i < |trace| && trace[i].InsertRow?
  }

  /** The effects of one submit, given whether a location was captured, who
      the auth lookup returns (`None` for a signed-out visitor) and whether
      the insert reports an error. Without a location the handler stops at
      once; after that, loading is switched on, and the `finally` block
      switches it off on every later path. */
  function Submission(
    location: Option<Location>,
    user: Option<string>,
    insertFails: bool,
    copy: Copy,
    build: (string, Location) -> DonationRow): (trace: seq<Effect>)
    ensures location.None? ==> trace == [Toast(Error, NoLocationMessage)]
    ensures location.Some? ==>
              && |trace| >= 3
              && trace[0] == SetLoading(true)
              && trace[1] == GetUser
              && trace[|trace| - 1] == SetLoading(false)
    ensures Inserts(trace) <==> location.Some? && user.Some?
    ensures forall i :: 0 <= i < |trace| && trace[i].InsertRow? ==>
              location.Some? && user.Some? && trace[i].row == build(user.value, location.value)
    ensures Navigate("/map") in trace <==> location.Some? && user.Some? && !insertFails
    ensures Navigate("/auth") in trace <==> location.Some? && user.None?
    ensures Toast(Success, copy.created) in trace <==> location.Some? && user.Some? && !insertFails
    ensures location.Some? && user.Some? && insertFails ==> Toast(Error, copy.failed) in trace
    ensures copy.failed != copy.notLoggedIn && copy.failed != NoLocationMessage ==>
              (Toast(Error, copy.failed) in trace <==> location.Some? && user.Some? && insertFails)
    ensures forall i, j :: 0 <= i < |trace| && 0 <= j < |trace| && trace[i].InsertRow? && trace[j].InsertRow? ==> i == j
    ensures location.Some? && user.None? ==> Toast(Error, copy.notLoggedIn) in trace
  {
    match location
    case None => [Toast(Error, NoLocationMessage)]
    case Some(loc) =>
      match user
      case None =>
        var t := [SetLoading(true), GetUser, Toast(Error, copy.notLoggedIn), Navigate("/auth"), SetLoading(false)];
        assert forall i :: 0 <= i < |t| ==> !t[i].InsertRow?;
        t
      case Some(uid) =>
        var outcome :=
          if insertFails then [Toast(Error, copy.failed)]
          else [Toast(Success, copy.created), Navigate("/map")];
        var t := [SetLoading(true), GetUser, InsertRow(build(uid, loc))] + outcome + [SetLoading(false)];
        assert t[2].InsertRow?;
        t
  }

  /** The submit button is disabled while a submit is in flight or before a
      location has been captured. */
  function SubmitEnabled(loading: bool, location: Option<Location>): (enabled: bool)
    ensures enabled <==> !loading && location.Some?
  {
    !(loading || location.None?)
  }

  /** No trace records an insert without first asking who the user is. */
  lemma {:induction false} AuthBeforeInsert(
    location: Option<Location>, user: Option<string>, insertFails: bool,
    copy: Copy, build: (string, Location) -> DonationRow, i: int)
    requires 0 <= i < |Submission(location, user, insertFails, copy, build)|
    requires Submission(location, user, insertFails, copy, build)[i].InsertRow?
    ensures GetUser in Submission(location, user, insertFails, copy, build)[..i]
  {
    var t := Submission(location, user, insertFails, copy, build);
    assert t[i].InsertRow?;
    assert location.Some?;
    assert t[..i][1] == GetUser;
  }
}

=== FILE: js.dfy ===
/** The slice of JavaScript semantics the two edge functions rely on: JSON
    values, truthiness, object destructuring of a request body, and the
    HTTP responses they build. */
module Js {
  import opened Common

  /** A value decoded from JSON, plus `undefined` for a missing property.
      Numbers are reals; `NaN` is kept apart because it is falsy. */
  datatype Value =
    | Undefined
    | Null
    | Bool(b: bool)
    | Number(n: real)
    | NaN
    | Str(s: string)
    | Arr(items: seq<Value>)
    | Obj(fields: map<string, Value>)

  /** JavaScript truthiness: false, 0, NaN, "", null and undefined are falsy; every array and
      object, even an empty one, is truthy. */
  predicate Truthy(v: Value) {
    match v
    case Undefined => false
    case Null => false
    case Bool(b) => b
    case Number(n) => n != 0.0
    case NaN => false
    case Str(s) => s != ""
    case Arr(_) => true
    case Obj(_) => true
  }

  /** What `await req.json()` delivers: a value, or the SyntaxError raised
      for a body that is not JSON (with its message). */
  datatype Body = Parsed(value: Value) | Unparsable(message: string)

  /** Outcome of destructuring named properties out of a value. */
  datatype Destructured = Bound(values: seq<Value>) | TypeError

  /** Destructuring throws on null and undefined; an object yields its own
      fields (undefined where absent). The names the handlers destructure
      (`to`, `subject`, `html`, `text`) are neither inherited by objects nor
      carried by strings, numbers, booleans or arrays, so those values
      yield undefined for each of them. */
  function Destructure(v: Value, names: seq<string>): (d: Destructured)
    ensures d.TypeError? <==> v == Null || v == Undefined
    ensures d.Bound? ==> |d.values| == |names|
    ensures d.Bound? ==> forall i :: 0 <= i < |names| ==>
              d.values[i] == (if v.Obj? && names[i] in v.fields then v.fields[names[i]] else Undefined)
  {
    match v
    case Null => TypeError
    case Undefined => TypeError
    case Obj(fields) =>
      Bound(seq(|names|, i requires 0 <= i < |names| => if names[i] in fields then fields[names[i]] else Undefined))
    case _ => Bound(seq(|names|, i requires 0 <= i < |names| => Undefined))
  }

  /** Stands for the engine's TypeError message when a null body is
      destructured; the exact wording belongs to the runtime. */
  const DestructureNullMessage: string := "Cannot destructure property of null"

  datatype Response = Response(status: int, body: Option<Value>, headers: map<string, string>)

  const CorsHeaders: map<string, string> := map[
    "Access-Control-Allow-Origin" := "*",
    "Access-Control-Allow-Headers" := "authorization, x-client-info, apikey, content-type"]

  const JsonHeaders: map<string, string> := CorsHeaders["Content-Type" := "application/json"]

  /** The answer to a CORS preflight: no body, default status 200. */
  const Preflight: Response := Response(200, None, CorsHeaders)

  function JsonResponse(status: int, v: Value): (r: Response)
    ensures r.status == status && r.body == Some(v)
    ensures forall k :: k in CorsHeaders ==> k in r.headers && r.headers[k] == CorsHeaders[k]
    ensures "Content-Type" in r.headers && r.headers["Content-Type"] == "application/json"
  {
    Response(status, Some(v), JsonHeaders)
  }

  function ErrorBody(message: string): Value {
    Obj(map["error" := Str(message)])
  }

  const UnknownError: string := "Unknown error"
}

=== FILE: leaderboard.dfy ===
/** The "Top Contributors" leaderboard: the snapshot its query asks the
    database for, the mapping of query rows to display entries, and the
    rank marker drawn beside each entry. */
module Leaderboard {
  import opened Common
  import Decimal

  /** A row of the `user_stats` table. */
  datatype StatsRow = StatsRow(userId: string, points: int, donationsCount: int)

  /** The profile columns the query joins in. */
  datatype ProfileRef = ProfileRef(fullName: string, avatarUrl: Option<string>)

  /** One row of the query's answer: stats with their profile nested. */
  datatype QueryRow = QueryRow(userId: string, points: int, donationsCount: int, profiles: ProfileRef)

  /** One displayed entry. */
  datatype Leader = Leader(userId: string, points: int, donationsCount: int, fullName: string, avatarUrl: Option<string>)

  datatype RankIcon = Trophy | Medal | Award | Numbered(text: string)

  /** The row limit the query requests. */
  const Limit: nat := 10

  /** The inner join with profiles: stats rows whose user has a profile, with it
      attached; rows without one are dropped. Table order is kept. */
  function InnerJoin(stats: seq<StatsRow>, profiles: map<string, ProfileRef>): (rows: seq<QueryRow>)
    ensures |rows| <= |stats|
    ensures forall i :: 0 <= i < |rows| ==> rows[i].userId in profiles && rows[i].profiles == profiles[rows[i].userId]
    ensures forall i :: 0 <= i < |rows| ==>
              StatsRow(rows[i].userId, rows[i].points, rows[i].donationsCount) in stats
    ensures forall s :: s in stats && s.userId in profiles ==>
              QueryRow(s.userId, s.points, s.donationsCount, profiles[s.userId]) in rows
  {
    if |stats| == 0 then []
    else
      var s := stats[0];
      var rest := InnerJoin(stats[1..], profiles);
      if s.userId in profiles then [QueryRow(s.userId, s.points, s.donationsCount, profiles[s.userId])] + rest
      else rest
  }

  predicate NonIncreasing(rows: seq<QueryRow>) {
    forall i, j :: 0 <= i < j < |rows| ==> rows[i].points >= rows[j].points
  }

  /** What the query's descending order on points and limit of 10 promise:
      `min(10, n)` of the candidate rows, highest points first, and no row
      left out has more points than any row returned. Ties may come back in
      any order. */
  predicate IsSnapshot(candidates: seq<QueryRow>, snap: seq<QueryRow>) {
    && |snap| == Min(Limit, |candidates|)
    && NonIncreasing(snap)
    && multiset(snap) <= multiset(candidates)
    && OutrankedAll(candidates, snap)
  }

  /** No candidate left out of `snap` has more points than a row in it. */
  predicate OutrankedAll(candidates: seq<QueryRow>, snap: seq<QueryRow>) {
    forall x, i :: x in multiset(candidates) - multiset(snap) && 0 <= i < |snap| ==> x.points <= snap[i].points
  }

  function MaxIndex(rows: seq<QueryRow>): (m: nat)
    requires |rows| > 0
    ensures m < |rows|
    ensures forall j :: 0 <= j < |rows| ==> rows[j].points <= rows[m].points
  {
    if |rows| == 1 then 0
    else
      var m := MaxIndex(rows[1..]) + 1;
      assert forall j :: 1 <= j < |rows| ==> rows[j] == rows[1..][j - 1];
      if rows[0].points >= rows[m].points then 0 else m
  }

  function RemoveAt(rows: seq<QueryRow>, i: nat): (r: seq<QueryRow>)
    requires i < |rows|
    ensures multiset(r) + multiset{rows[i]} == multiset(rows)
    ensures |r| == |rows| - 1
  {
    assert rows == rows[..i] + [rows[i]] + rows[i + 1..];
    rows[..i] + rows[i + 1..]
  }

  /** A snapshot by repeated selection of the highest remaining row: one of
      the answers the query contract allows. */
  function TopN(rows: seq<QueryRow>, n: nat): (r: seq<QueryRow>)
    ensures |r| == Min(n, |rows|)
    ensures NonIncreasing(r)
    ensures multiset(r) <= multiset(rows)
    ensures OutrankedAll(rows, r)
    decreases n
  {
    if n == 0 || |rows| == 0 then []
    else
      var m := MaxIndex(rows);
      var rest := RemoveAt(rows, m);
      var tail := TopN(rest, n - 1);
      PrependMax(rows, m, rest, tail);
      [rows[m]] + tail
  }

  /** One selection step: putting the maximum in front of a valid snapshot
      of the remaining rows gives a valid snapshot of all rows. */
  lemma PrependMax(rows: seq<QueryRow>, m: nat, rest: seq<QueryRow>, tail: seq<QueryRow>)
    requires m < |rows|
    requires forall j :: 0 <= j < |rows| ==> rows[j].points <= rows[m].points
    requires multiset(rest) + multiset{rows[m]} == multiset(rows)
    requires NonIncreasing(tail)
    requires multiset(tail) <= multiset(rest)
    requires OutrankedAll(rest, tail)
    ensures NonIncreasing([rows[m]] + tail)
    ensures multiset([rows[m]] + tail) <= multiset(rows)
    ensures OutrankedAll(rows, [rows[m]] + tail)
  {
    assert multiset([rows[m]] + tail) == multiset{rows[m]} + multiset(tail);
    PrependSorted(rows, m, rest, tail);
    PrependOutranks(rows, m, rest, tail);
  }

  lemma PrependSorted(rows: seq<QueryRow>, m: nat, rest: seq<QueryRow>, tail: seq<QueryRow>)
    requires m < |rows|
    requires forall j :: 0 <= j < |rows| ==> rows[j].points <= rows[m].points
    requires multiset(rest) + multiset{rows[m]} == multiset(rows)
    requires NonIncreasing(tail)
    requires multiset(tail) <= multiset(rest)
    ensures NonIncreasing([rows[m]] + tail)
  {
    var r := [rows[m]] + tail;
    forall i, j | 0 <= i < j < |r|
      ensures r[i].points >= r[j].points
    {
      assert r[j] == tail[j - 1];
      if i == 0 {
        assert tail[j - 1] in multiset(tail);
        assert r[j] in multiset(rows);
      } else {
        assert r[i] == tail[i - 1];
      }
    }
  }

  lemma PrependOutranks(rows: seq<QueryRow>, m: nat, rest: seq<QueryRow>, tail: seq<QueryRow>)
    requires m < |rows|
    requires forall j :: 0 <= j < |rows| ==> rows[j].points <= rows[m].points
    requires multiset(rest) + multiset{rows[m]} == multiset(rows)
    requires multiset(tail) <= multiset(rest)
    requires OutrankedAll(rest, tail)
    ensures OutrankedAll(rows, [rows[m]] + tail)
  {
    var r := [rows[m]] + tail;
    assert multiset(r) == multiset{rows[m]} + multiset(tail);
    DifferenceCancels(multiset(rest), multiset(tail), rows[m]);
    forall x, i | x in multiset(rows) - multiset(r) && 0 <= i < |r|
      ensures x.points <= r[i].points
    {
      if i == 0 {
        assert x in multiset(rows);
        assert x in rows;
      } else {
        assert x in multiset(rest) - multiset(tail);
        assert r[i] == tail[i - 1];
      }
    }
  }

  /** Adding the same element to both sides leaves a difference unchanged. */
  lemma DifferenceCancels<T>(a: multiset<T>, b: multiset<T>, x: T)
    ensures (a + multiset{x}) - (multiset{x} + b) == a - b
  {
  }

  /** The query contract can always be met: the selection above meets it. */
  lemma TopNIsSnapshot(rows: seq<QueryRow>)
    ensures IsSnapshot(rows, TopN(rows, Limit))
  {
  }

  /** The first entry of any snapshot has the most points of all candidates. */
  lemma {:induction false} SnapshotHeadIsMax(candidates: seq<QueryRow>, snap: seq<QueryRow>, x: QueryRow)
    requires IsSnapshot(candidates, snap)
    requires |snap| > 0
    requires x in candidates
    ensures x.points <= snap[0].points
  {
    if x in multiset(candidates) - multiset(snap) {
    } else {
      assert x in multiset(snap);
      var k :| 0 <= k < |snap| && snap[k] == x;
    }
  }

  /** The `formatted` mapping: profile columns lifted to the top level. */
  function Format(rows: seq<QueryRow>): (leaders: seq<Leader>)
    ensures |leaders| == |rows|
    ensures forall i :: 0 <= i < |rows| ==>
              && leaders[i].userId == rows[i].userId
              && leaders[i].points == rows[i].points
              && leaders[i].donationsCount == rows[i].donationsCount
              && leaders[i].fullName == rows[i].profiles.fullName
              && leaders[i].avatarUrl == rows[i].profiles.avatarUrl
  {
    seq(|rows|, i requires 0 <= i < |rows| =>
      Leader(rows[i].userId, rows[i].points, rows[i].donationsCount,
             rows[i].profiles.fullName, rows[i].profiles.avatarUrl))
  }

  /** Reads the query rows back out of the displayed entries. */
  function Unformat(leaders: seq<Leader>): seq<QueryRow> {
    seq(|leaders|, i requires 0 <= i < |leaders| =>
      QueryRow(leaders[i].userId, leaders[i].points, leaders[i].donationsCount,
               ProfileRef(leaders[i].fullName, leaders[i].avatarUrl)))
  }

  /** Formatting loses nothing and reorders nothing, so the displayed list
      keeps the snapshot's descending order. */
  lemma FormatKeepsSnapshot(rows: seq<QueryRow>)
    ensures Unformat(Format(rows)) == rows
    ensures NonIncreasing(rows) ==>
              forall i, j :: 0 <= i < j < |rows| ==> Format(rows)[i].points >= Format(rows)[j].points
  {
  }

  /** The list the board shows after a fetch: stats joined with profiles,
      cut down as the query contract allows, then reshaped for display.
      A query that returns no data (`queryFails`) leaves the list shown
      before, `prev`, in place; an empty answer still replaces it. */
  function Fetch(prev: seq<Leader>, queryFails: bool, stats: seq<StatsRow>,
                 profiles: map<string, ProfileRef>): (leaders: seq<Leader>)
    ensures queryFails ==> leaders == prev
    ensures !queryFails ==> |leaders| <= Limit
    ensures !queryFails ==> |leaders| == Min(Limit, |InnerJoin(stats, profiles)|)
    ensures !queryFails ==> forall i, j :: 0 <= i < j < |leaders| ==> leaders[i].points >= leaders[j].points
    ensures !queryFails ==> forall i :: 0 <= i < |leaders| ==>
              && leaders[i].userId in profiles
              && leaders[i].fullName == profiles[leaders[i].userId].fullName
              && StatsRow(leaders[i].userId, leaders[i].points, leaders[i].donationsCount) in stats
    ensures !queryFails ==> IsSnapshot(InnerJoin(stats, profiles), Unformat(leaders))
  {
    if queryFails then prev
    else
      var joined := InnerJoin(stats, profiles);
      var snap := TopN(joined, Limit);
      forall i | 0 <= i < |snap|
        ensures snap[i] in joined
      {
        assert snap[i] in multiset(snap);
      }
      FormatKeepsSnapshot(snap);
      assert IsSnapshot(joined, snap);
      var leaders := Format(snap);
      assert Unformat(leaders) == snap;
      leaders
  }

  /** Trophy, medal and award for the first three places, "#<place>" after. */
  function RankIconOf(index: nat): (icon: RankIcon)
    ensures index == 0 <==> icon == Trophy
    ensures index == 1 <==> icon == Medal
    ensures index == 2 <==> icon == Award
    ensures index >= 3 <==> icon.Numbered?
    ensures icon.Numbered? ==>
              && |icon.text| >= 2 && icon.text[0] == '#' && icon.text[1] != '0'
              && Decimal.AllDigits(icon.text[1..])
              && Decimal.ParseDigits(icon.text[1..]) == index + 1
  {
    Decimal.ParseNatToString(index + 1);
    if index == 0 then Trophy
    else if index == 1 then Medal
    else if index == 2 then Award
    else Numbered("#" + Decimal.NatToString(index + 1))
  }

  /** No two places share a marker: numbered ones read back as different
      places. */
  lemma RankIconsDistinct(i: nat, j: nat)
    requires i != j
    ensures RankIconOf(i) != RankIconOf(j)
  {
  }
}

=== FILE: profile_progress.dfy ===
/** Profile completion: how many of the four profile fields are filled in,
    the percentage shown on the progress bar, and the per-field checklist. */
module ProfileProgress {
  import opened Common

  /** `avatar_url` and `phone` may be null; `full_name` and `role` are
      declared as plain strings. */
  datatype Profile = Profile(fullName: string, avatarUrl: Option<string>, phone: Option<string>, role: string)

  datatype Field = FullName | Avatar | Phone | Role

  datatype Item = Item(caption: string, completed: bool)

  /** The denominator of the score. */
  const Total: nat := 4

  /** JavaScript truthiness of a string that may be null: present and
      non-empty. */
  predicate Filled(s: Option<string>) {
    s.Some? && s.value != ""
  }

  function ValueOf(p: Profile, f: Field): Option<string> {
    match f
    case FullName => Some(p.fullName)
    case Avatar => p.avatarUrl
    case Phone => p.phone
    case Role => Some(p.role)
  }

  /** Fields in checklist order. */
  const Fields: seq<Field> := [FullName, Avatar, Phone, Role]

  function CaptionOf(f: Field): string {
    match f
    case FullName => "Name"
    case Avatar => "Avatar"
    case Phone => "Phone"
    case Role => "Role"
  }

  function Bit(b: bool): nat {
    if b then 1 else 0
  }

  /** The counter the score is computed from: one per filled field. */
  function Completed(p: Profile): (n: nat)
    ensures n <= Total
    ensures n == Total <==> forall f: Field :: Filled(ValueOf(p, f))
    ensures n == 0 <==> forall f: Field :: !Filled(ValueOf(p, f))
  {
    assert ValueOf(p, FullName) == Some(p.fullName) && ValueOf(p, Avatar) == p.avatarUrl;
    assert ValueOf(p, Phone) == p.phone && ValueOf(p, Role) == Some(p.role);
    Bit(Filled(Some(p.fullName))) + Bit(Filled(p.avatarUrl)) + Bit(Filled(p.phone)) + Bit(Filled(Some(p.role)))
  }

  /** The count divided by the total, times 100. Every quotient here (0, 1/4, 1/2, 3/4, 1)
      and its product with 100 is exact in binary floating point, so real
      arithmetic gives the same values. */
  function Progress(p: Profile): (pct: real)
    ensures pct == (Completed(p) * 25) as real
    ensures pct in {0.0, 25.0, 50.0, 75.0, 100.0}
    ensures pct == 100.0 <==> forall f: Field :: Filled(ValueOf(p, f))
    ensures pct == 0.0 <==> forall f: Field :: !Filled(ValueOf(p, f))
  {
    (Completed(p) as real / Total as real) * 100.0
  }

  /** The checklist: one entry per field, in the order Name, Avatar, Phone,
      Role, ticked when that field is filled. */
  function Items(p: Profile): (items: seq<Item>)
    ensures |items| == |Fields|
    ensures forall i :: 0 <= i < |items| ==> items[i].caption == CaptionOf(Fields[i])
    ensures forall i :: 0 <= i < |items| ==> (items[i].completed <==> Filled(ValueOf(p, Fields[i])))
  {
    [ Item("Name", Filled(Some(p.fullName))),
      Item("Avatar", Filled(p.avatarUrl)),
      Item("Phone", Filled(p.phone)),
      Item("Role", Filled(Some(p.role))) ]
  }

  function CountCompleted(items: seq<Item>): (n: nat)
    ensures n <= |items|
  {
    if |items| == 0 then 0 else Bit(items[0].completed) + CountCompleted(items[1..])
  }

  /** The checklist ticks as many entries as the score counts. */
  lemma ItemsAgreeWithScore(p: Profile)
    ensures CountCompleted(Items(p)) == Completed(p)
  {
    var items := Items(p);
    assert CountCompleted(items[3..]) == Bit(items[3].completed) by {
      assert items[3..][1..] == [];
    }
    assert CountCompleted(items[2..]) == Bit(items[2].completed) + CountCompleted(items[3..]) by {
      assert items[2..][1..] == items[3..];
    }
    assert CountCompleted(items[1..]) == Bit(items[1].completed) + CountCompleted(items[2..]) by {
      assert items[1..][1..] == items[2..];
    }
  }

  /** The profile with field `f` set to `v`. */
  function Fill(p: Profile, f: Field, v: string): (q: Profile)
    ensures ValueOf(q, f) == Some(v)
    ensures forall g: Field :: g != f ==> ValueOf(q, g) == ValueOf(p, g)
  {
    match f
    case FullName => p.(fullName := v)
    case Avatar => p.(avatarUrl := Some(v))
    case Phone => p.(phone := Some(v))
    case Role => p.(role := v)
  }

  /** Filling in a field never lowers the score; filling in an empty one
      raises it by exactly one quarter. */
  lemma FillNeverDecreases(p: Profile, f: Field, v: string)
    requires v != ""
    ensures Progress(Fill(p, f, v)) >= Progress(p)
    ensures !Filled(ValueOf(p, f)) ==> Progress(Fill(p, f, v)) == Progress(p) + 25.0
    ensures Filled(ValueOf(p, f)) ==> Progress(Fill(p, f, v)) == Progress(p)
  {
  }
}

=== FILE: request_form.dfy ===
/** The food-request form. It writes to the same `donations` table as the
    donation form; its urgency text goes into the pickup-window column and
    it sends no expiry at all. */
module RequestForm {
  import opened Common
  import Dietary
  import opened Donations

  datatype Form = Form(
    title: string,
    description: string,
    foodType: string,
    quantity: string,
    urgency: string,
    dietaryInfo: seq<string>)

  /** The state the form opens with. */
  const Blank: Form := Form("", "", "", "", "", [])

  const RequestCopy: Copy := Copy(
    "You must be logged in to create a request",
    "Failed to create request. Please try again.",
    "Request created successfully! \U{1F64F}")

  /** The dietary checkbox handler: only the tag list changes. */
  function HandleDietaryChange(f: Form, option: string, checked: bool): (r: Form)
    ensures r.title == f.title && r.description == f.description
    ensures r.foodType == f.foodType && r.quantity == f.quantity
    ensures r.urgency == f.urgency
    ensures checked ==> |r.dietaryInfo| == |f.dietaryInfo| + 1
    ensures checked ==> r.dietaryInfo[..|f.dietaryInfo|] == f.dietaryInfo
    ensures checked ==> r.dietaryInfo[|f.dietaryInfo|] == option
    ensures !checked ==> option !in r.dietaryInfo
    ensures !checked ==> Dietary.IsSubsequence(r.dietaryInfo, f.dietaryInfo)
    ensures !checked ==> forall x :: x != option ==> multiset(r.dietaryInfo)[x] == multiset(f.dietaryInfo)[x]
  {
    f.(dietaryInfo := Dietary.Toggle(f.dietaryInfo, option, checked))
  }

  /** The row inserted for a signed-in user at a captured location. */
  function Record(f: Form, userId: string, loc: Location): (row: DonationRow)
    ensures row.status == Available
    ensures row.userId == userId
    ensures row.latitude == loc.lat && row.longitude == loc.lng
    ensures row.expiry.Omitted?
    ensures row.pickupWindow == f.urgency
  {
    DonationRow(
      userId, f.title, f.description, f.foodType, f.quantity,
      Omitted, f.urgency, f.dietaryInfo,
      loc.lat, loc.lng, Available)
  }

  /** Reads the form fields back out of an inserted row. */
  function FormOf(row: DonationRow): Form {
    Form(row.title, row.description, row.foodType, row.quantity, row.pickupWindow, row.dietaryInfo)
  }

  /** The inserted row carries every field of the form. */
  lemma RecordKeepsForm(f: Form, userId: string, loc: Location)
    ensures FormOf(Record(f, userId, loc)) == f
  {
  }

  /** The submit handler. */
  function Submit(f: Form, location: Option<Location>, user: Option<string>, insertFails: bool): (trace: seq<Effect>)
    ensures location.None? ==> trace == [Toast(Error, NoLocationMessage)]
    ensures location.None? ==> GetUser !in trace && !Inserts(trace)
    ensures Inserts(trace) <==> location.Some? && user.Some?
    ensures forall i :: 0 <= i < |trace| && trace[i].InsertRow? ==>
              location.Some? && user.Some? && trace[i].row == Record(f, user.value, location.value)
    ensures Navigate("/map") in trace <==> location.Some? && user.Some? && !insertFails
    ensures Toast(Success, RequestCopy.created) in trace <==> location.Some? && user.Some? && !insertFails
    ensures Toast(Error, RequestCopy.failed) in trace <==> location.Some? && user.Some? && insertFails
    ensures forall i, j :: 0 <= i < |trace| && 0 <= j < |trace| && trace[i].InsertRow? && trace[j].InsertRow? ==> i == j
    ensures location.Some? && user.None? ==> Toast(Error, RequestCopy.notLoggedIn) in trace
  {
    Submission(location, user, insertFails, RequestCopy, (uid, loc) => Record(f, uid, loc))
  }
}

=== FILE: send_notification.dfy ===
/** The `send-notification` edge function: answers CORS preflights, checks
    that a notification request names a recipient, a subject and some
    content, and acknowledges it with a fresh id. Delivery itself is not
    performed; the request is only logged. */
module SendNotification {
  import opened Common
  import opened Js

  datatype Effect = ReadBody | LogNotification(to: Value, subject: Value) | LogError(message: string)

  datatype Outcome = Outcome(response: Response, effects: seq<Effect>)

  /** The request fields, or the message of the error raised while getting
      at them. */
  datatype Request = Fields(to: Value, subject: Value, html: Value, text: Value) | Failed(message: string)

  const MissingFields: string := "Missing fields"

  /** The body's `to`, `subject`, `html` and `text` properties. */
  function ReadRequest(body: Body): (r: Request)
    ensures r.Failed? <==> body.Unparsable? || body.value == Null || body.value == Undefined
    ensures body.Unparsable? ==> r == Failed(body.message)
    ensures r.Fields? ==> Destructure(body.value, ["to", "subject", "html", "text"]) == Bound([r.to, r.subject, r.html, r.text])
  {
    match body
    case Unparsable(m) => Failed(m)
    case Parsed(v) =>
      match Destructure(v, ["to", "subject", "html", "text"])
      case TypeError => Failed(DestructureNullMessage)
      case Bound(vs) => Fields(vs[0], vs[1], vs[2], vs[3])
  }

  /** The validation rule: a recipient, a subject, and html or text. */
  predicate Complete(r: Request)
    requires r.Fields?
  {
    Truthy(r.to) && Truthy(r.subject) && (Truthy(r.html) || Truthy(r.text))
  }

  function SuccessBody(id: string): Value {
    Obj(map["data" := Obj(map["id" := Str(id)])])
  }

  /** The handler, for a request with the given method and body; `freshId`
      is the random UUID the acknowledgement carries. */
  function Handle(verb: string, body: Body, freshId: string): (o: Outcome)
    ensures verb == "OPTIONS" ==> o.effects == [] && o.response == Preflight
    ensures verb != "OPTIONS" ==> |o.effects| >= 1 && o.effects[0] == ReadBody
    ensures o.response.status in {200, 400, 500}
    ensures o.response.status == 400 <==>
              verb != "OPTIONS" && ReadRequest(body).Fields? && !Complete(ReadRequest(body))
    ensures o.response.status == 400 ==> o.response.body == Some(ErrorBody(MissingFields))
    ensures o.response.status == 500 <==> verb != "OPTIONS" && ReadRequest(body).Failed?
    ensures o.response.status == 500 ==> o.response.body == Some(ErrorBody(ReadRequest(body).message))
    ensures verb != "OPTIONS" && o.response.status == 200 ==>
              o.response.body == Some(SuccessBody(freshId))
              && LogNotification(ReadRequest(body).to, ReadRequest(body).subject) in o.effects
    ensures forall k :: k in CorsHeaders ==> k in o.response.headers && o.response.headers[k] == CorsHeaders[k]
  {
    if verb == "OPTIONS" then Outcome(Preflight, [])
    else
      var req := ReadRequest(body);
      match req
      case Failed(m) =>
        // The fallback to "Unknown error" applies only to a missing message;
        // every error raised here carries a string message.
        Outcome(JsonResponse(500, ErrorBody(m)), [ReadBody, LogError(m)])
      case Fields(to, subject, html, text) =>
        if !Complete(req) then Outcome(JsonResponse(400, ErrorBody(MissingFields)), [ReadBody])
        else Outcome(JsonResponse(200, SuccessBody(freshId)), [ReadBody, LogNotification(to, subject)])
  }

  /** Either content field alone satisfies validation: a request with a
      recipient, a subject and only html (or only text) is acknowledged. */
  lemma OneContentFieldSuffices(to: string, subject: string, content: string, useHtml: bool, freshId: string)
    requires to != "" && subject != "" && content != ""
    ensures var fields := map["to" := Str(to), "subject" := Str(subject), (if useHtml then "html" else "text") := Str(content)];
            Handle("POST", Parsed(Obj(fields)), freshId).response == JsonResponse(200, SuccessBody(freshId))
  {
    var fields := map["to" := Str(to), "subject" := Str(subject), (if useHtml then "html" else "text") := Str(content)];
    var req := ReadRequest(Parsed(Obj(fields)));
    assert req.to == Str(to) && req.subject == Str(subject);
    if useHtml {
      assert req.html == Str(content);
    } else {
      assert req.text == Str(content);
    }
  }
}
